=== FILE: README.md ===
# Argentine address normaliser — Dafny model

`normalizador_domicilios_arg.py` loads a table of shop addresses (`direccion`,
`provincia`, `ciudad`/`departamento`). It first normalises the table. It then
enriches each row with street, house number, coordinates and, inside the City
of Buenos Aires, barrio and comuna. It finally writes the six result columns
(`Altura`, `Calle`, `Latitud`, `Longitud`, `Barrio`, `Comuna`) back onto the
table. Rows in the city go through the USIG services:

1. normalise and geocode;
2. convert the planar coordinates to longitude/latitude;
3. look up the neighbourhood.

Every other row goes through the national Georef normaliser.

This project models that core as pure functions:

- `Values`: the dynamic values of the script. One `Value` datatype covers table cells and decoded JSON bodies (None, NaN, booleans, numbers, strings, lists, dicts). Alongside it are the Python operations the script applies to them (truthiness, `d[k]`, `d.get(k, default)`, `k in v`, `v[0]`) and the exceptions those operations raise.
- `Address`: `direccion.rsplit(' ', 1)` and the choice of `calle`/`altura`.
- `Resolvers`: the four service wrappers.
  - Each remote service is a total function from the query parameters to an HTTP reply (status and decoded body).
  - The wrappers build the query, branch on status 200 and default missing keys.
  - The question "is this service called?" is stated as "the result does not change when that service is replaced by any other".
- `Tables`: the dataset, as an ordered column list plus one map per row. Also `datos[col] = values`, with rows past the end of `values` getting NaN, as pandas' default-index alignment does.
- `Enrichment`: the per-row decision. `Enrich` returns either the six-field record or the exception that escapes the loop.
- `Preprocessing`: `preprocess_dataframe`.
- `Pipeline`: `main()` from preprocessing on. That covers the required-columns check, the loop that appends one record per row, and the merge of the result columns.

Three behaviours of the code worth stating explicitly:

- The address is split at the last literal space character, not at any whitespace.
- When the coordinate converter yields no coordinate, the code subscripts `None`. That raises `TypeError` and ends the run. No "N/A" record is produced.
- The merge does not check that the result count equals the row count. A row beyond the end of the results would receive NaN.

## Model

| member | source | states |
|---|---|---|
| Address.LastSpace | normalizador_domicilios_arg.py:104 | The index found holds a space and no space follows it; there is none exactly when the text has no space. |
| Address.Split | normalizador_domicilios_arg.py:104-106 | With a space, `calle + " " + altura` rebuilds the address and `altura` has no space; without one, `calle` is the whole address and `altura` is "N/A". |
| Address.SplitUnique | normalizador_domicilios_arg.py:104-106 | Any way of writing the address as street, one space, space-free tail is exactly what the split returns, so the split is the cut at the last space. |
| Address.SplitEdgeCases | normalizador_domicilios_arg.py:104-106 | A trailing space gives an empty house number; a single leading space gives an empty street. |
| Values.Truthy | normalizador_domicilios_arg.py:47 | A value is false exactly when it is None, False, zero, or an empty string, list or dict; NaN is therefore true, so a NaN `departamento` is sent to the normaliser. |
| Values.Subscript | normalizador_domicilios_arg.py:111 | `v[key]` succeeds exactly on a dict holding the key and returns that entry; otherwise it raises. |
| Values.DictGet | normalizador_domicilios_arg.py:35 | `v.get(key, default)` succeeds exactly on a dict, yielding the entry of a present key and the default for a missing one; on anything else it raises AttributeError. |
| Values.Contains | normalizador_domicilios_arg.py:110 | `key in v` is the key test on a dict, the element test on a list and the substring test on a string (true exactly when the key occurs at some position); it raises TypeError exactly on every other value. |
| Values.InfixAt | normalizador_domicilios_arg.py:110 | The recursive substring test holds exactly when the needle occurs at some position of the text. |
| Values.First | normalizador_domicilios_arg.py:135 | `v[0]` of a non-empty list is its first element. |
| Tables.Cell | normalizador_domicilios_arg.py:104 | `fila[key]` succeeds exactly when the row holds the label, with that cell. |
| Tables.Aligned | normalizador_domicilios_arg.py:157 | Row i receives the value at position i of the column, or NaN when the column is shorter. |
| Tables.AlignedPadded | normalizador_domicilios_arg.py:157 | Aligning a column is the same as reading it after padding it with NaN to any length, which is what index alignment does to a shorter column. |
| Tables.SetColumn | normalizador_domicilios_arg.py:157 | Assigning a column keeps the row count, appends the label only when new, writes row i's aligned value (NaN past the end), leaves every other cell alone and keeps the table well formed. |
| Tables.Absent | normalizador_domicilios_arg.py:96 | The comprehension keeps exactly the wanted labels not present, each as many times as it is wanted, in their original order. |
| Resolvers.GeorefParams | normalizador_domicilios_arg.py:42-48 | The query holds `direccion`, `provincia`, `max = 5`, plus `departamento` exactly when it is truthy, and nothing else. |
| Resolvers.GeocodeParams | normalizador_domicilios_arg.py:60-64 | The query holds exactly `calle`, `altura` and `desambiguar = 1`. |
| Resolvers.ConvertParams | normalizador_domicilios_arg.py:75-79 | The query holds exactly `x`, `y` and `output = "lonlat"`. |
| Resolvers.LocationParams | normalizador_domicilios_arg.py:30 | The query holds exactly `x` and `y`. |
| Resolvers.GetNormalizedAddress | normalizador_domicilios_arg.py:50-54 | On 200 the `direcciones` entry of the body, or None when absent; None on any other status; fails only on a 200 body that is not a dict. |
| Resolvers.ConvertCoordinates | normalizador_domicilios_arg.py:80-84 | On 200 the `resultado` entry or None; None on any other status; fails only on a 200 body that is not a dict. |
| Resolvers.GetCabaAdditionalData | normalizador_domicilios_arg.py:32-37 | On a non-200 reply both fields are "N/A"; on 200 each of barrio and comuna is the body's entry or "N/A" on its own. |
| Enrichment.Fallback | normalizador_domicilios_arg.py:145-152 | The fallback record carries the split street and number and "N/A" in the four other fields. |
| Enrichment.FallbackOfAddress | normalizador_domicilios_arg.py:104-106 | The fallback record of an address rebuilds it from street and number when it has a space; without one, the address is the street and the other five fields are "N/A". |
| Enrichment.IfPresent | normalizador_domicilios_arg.py:137-140 | `sub[key] if sub else "N/A"` succeeds exactly when the sub-object is falsy or a dict holding the key, with that entry or "N/A". |
| Enrichment.SplitCell | normalizador_domicilios_arg.py:103 | Splitting succeeds exactly on a string cell and gives its `Split`; any other cell raises AttributeError. |
| Enrichment.CityPath | normalizador_domicilios_arg.py:108-130 | Whenever the city chain yields a record, its street and house number are the split values. |
| Enrichment.NationalPath | normalizador_domicilios_arg.py:132-152 | Whenever the national chain yields a record, barrio and comuna are "N/A". |
| Enrichment.Enrich | normalizador_domicilios_arg.py:103-152 | A missing `direccion` or `provincia` raises KeyError and a non-string address raises AttributeError; a city record keeps the split values; a national record has "N/A" barrio and comuna. |
| Enrichment.EnrichReadsProvincia | normalizador_domicilios_arg.py:103-107 | A row that enriches has a string `direccion` and a `provincia` cell, since both are read before any branch. |
| Enrichment.EnrichCity | normalizador_domicilios_arg.py:108-109 | A city row is enriched by the city chain alone. |
| Enrichment.CityNotGeocoded | normalizador_domicilios_arg.py:108-130 | When the geocoder answers non-200, falsy, or without `GeoCodificacion`, the record is the split values with four "N/A"; neither converter nor reverse lookup is consulted. |
| Enrichment.CityGeocoded | normalizador_domicilios_arg.py:110-121 | Latitude is the converted `y` and longitude the converted `x`; barrio/comuna come from the reverse lookup at the converted point, each "N/A" when missing, both "N/A" on a non-200 reply. |
| Enrichment.CityConversionMissing | normalizador_domicilios_arg.py:111-112 | When the converter yields no coordinate the row raises TypeError instead of producing a record. |
| Enrichment.FromCandidate | normalizador_domicilios_arg.py:135-143 | A candidate's record has "N/A" barrio and comuna, and "N/A" latitude and longitude together when `ubicacion` is falsy. |
| Enrichment.NationalFirstCandidate | normalizador_domicilios_arg.py:133-143 | With a non-empty candidate list the record is read from the first candidate alone, and no city service is consulted. |
| Enrichment.NationalNoCandidates | normalizador_domicilios_arg.py:144-152 | With a non-200 reply, no `direcciones` or an empty list, the record is the split values with four "N/A". |
| Preprocessing.ReplaceCapital | normalizador_domicilios_arg.py:23 | A cell equal to "Capital" becomes the city's full name; every other cell is kept, and no result is "Capital". |
| Preprocessing.Rename | normalizador_domicilios_arg.py:24 | The label `ciudad` becomes `departamento`; every other label is kept, and no result is `ciudad`. |
| Preprocessing.PreprocessRow | normalizador_domicilios_arg.py:23-24 | A row loses `ciudad` and every "Capital" cell; its labels are the renamed ones and each cell is the replaced original. |
| Preprocessing.Preprocess | normalizador_domicilios_arg.py:20-25 | Same rows and columns in order, `ciudad` renamed to `departamento`, no "Capital" cell left, every cell the replaced original, well-formedness kept. |
| Preprocessing.RenamedColumns | normalizador_domicilios_arg.py:24 | Renaming labels one by one renames the label set and keeps labels distinct. |
| Preprocessing.ReplaceNothing | normalizador_domicilios_arg.py:23-24 | A row without `ciudad` and without "Capital" cells is left as it is. |
| Preprocessing.PreprocessIdempotent | normalizador_domicilios_arg.py:20-25 | Preprocessing twice equals preprocessing once. |
| Pipeline.MissingColumns | normalizador_domicilios_arg.py:96 | The missing list is exactly the absent required columns, in the order `direccion`, `provincia`, `departamento`, and it is empty exactly when all three are present. |
| Pipeline.EnrichAll | normalizador_domicilios_arg.py:102-152 | The loop succeeds exactly when every row does, and then has one record per row, record i being row i's; otherwise it raises the exception of the first failing row. |
| Pipeline.MergeColumns | normalizador_domicilios_arg.py:156-157 | Writing columns keeps the row count; the columns become the existing ones followed by the labels written that were not yet present, in order, and nothing else; row i becomes the row with each written cell set. |
| Pipeline.NewLabelsMembers | normalizador_domicilios_arg.py:156-157 | The appended labels are exactly the written labels not already present, each once. |
| Pipeline.NewLabelsFresh | normalizador_domicilios_arg.py:156-157 | Writing distinct columns none of which is present appends all their labels in the order written. |
| Pipeline.ResultLabelsAppended | normalizador_domicilios_arg.py:113-120 | On a table without result columns the appended labels are `Altura`, `Calle`, `Latitud`, `Longitud`, `Barrio`, `Comuna`, in that order. |
| Pipeline.MergeColumnsLabels | normalizador_domicilios_arg.py:156-157 | Every written column is a column of the result. |
| Pipeline.MergeColumnsWellFormed | normalizador_domicilios_arg.py:156-157 | Writing columns keeps a well-formed table well formed. |
| Pipeline.LabelInjective | normalizador_domicilios_arg.py:113-120 | Distinct result columns have distinct labels. |
| Pipeline.WriteCellsKeeps | normalizador_domicilios_arg.py:156-157 | Writing result cells leaves every other label of a row as it was. |
| Pipeline.WriteCellsWrites | normalizador_domicilios_arg.py:156-157 | After writing, each written column holds its own record field. |
| Pipeline.ResultColumnsComplete | normalizador_domicilios_arg.py:113-120 | The six result columns are all written. |
| Pipeline.Merge | normalizador_domicilios_arg.py:155-157 | No results leave the table unchanged. Otherwise: same rows; the columns are the old ones followed by the result labels that were missing, in order; row i holds record i (NaN past the end); every other cell is unchanged, none is added, and well-formedness is kept. |
| Pipeline.MergeAll | normalizador_domicilios_arg.py:155-157 | Writing a complete list of result columns appends exactly the missing labels, writes each row's record and leaves other cells untouched. |
| Pipeline.MergeAllIsLoop | normalizador_domicilios_arg.py:156-157 | The column-by-column loop builds exactly the appended labels and each row with its cells written. |
| Pipeline.ResultLabelsAdded | normalizador_domicilios_arg.py:156-157 | After a complete write every result label is a column. |
| Pipeline.OtherCellsKept | normalizador_domicilios_arg.py:156-157 | A label outside the six is present after the write exactly when it was before, with the same cell. |
| Pipeline.ResultCellsWritten | normalizador_domicilios_arg.py:156-157 | After a complete write each result cell of row i is record i's field, or NaN past the end. |
| Pipeline.SetColumnUnchanged | normalizador_domicilios_arg.py:157 | Assigning a column the values it already holds changes nothing. |
| Pipeline.MergeColumnsUnchanged | normalizador_domicilios_arg.py:156-157 | Writing columns that already hold their values changes nothing. |
| Pipeline.MergeColumnsWritesAt | normalizador_domicilios_arg.py:156-157 | After the write, row i's cell in column c is the aligned field of record i. |
| Pipeline.MergeColumnsIdempotent | normalizador_domicilios_arg.py:156-157 | Writing the same columns twice equals writing them once. |
| Pipeline.MergeIdempotent | normalizador_domicilios_arg.py:155-157 | Merging the same results twice equals merging them once. |
| Pipeline.Process | normalizador_domicilios_arg.py:96-157 | The run stops with the missing list exactly when a required column is absent. It completes exactly when none is absent and every row enriches; a crash carries the exception of the first row that raises. A completed table has the input's columns followed by the missing result labels (none for an empty table), each row's own record in the six result columns, and exactly the input's other cells. |
| Pipeline.Run | normalizador_domicilios_arg.py:93-157 | After preprocessing, the run stops exactly when `direccion`, `provincia`, or both `departamento` and `ciudad` are absent; a completed table has the input's row count and no "Capital" province. |
| Pipeline.KeptCell | normalizador_domicilios_arg.py:156-157 | For any results, a cell outside the six result columns is present in the merged table with the same value as in the input. |
| Pipeline.ProvinceNormalized | normalizador_domicilios_arg.py:94-157 | The province column survives the merge free of "Capital". |
| Pipeline.MergedResults | normalizador_domicilios_arg.py:155-157 | Merging the loop's records gives every row its own record in the six columns and leaves other cells unchanged. |

## Left out

- `fetch_data` (lines 5-18): the HTTP download, `pd.read_csv` and the unused local-path branch are I/O. `Run` takes the loaded table as its argument.
- The HTTP requests and JSON decoding inside the four wrappers. A service is a parameter, a total function from query to reply, and the body arrives already decoded. The URLs are not modelled. So the model never produces two exceptions that would escape a wrapper and end the run: a `requests.get` failure (a connection error or timeout) and a decoding error on a 200 reply whose body is not JSON.
- `print` (lines 98 and 159): a run that stops for missing columns returns the missing list instead of printing it. The final preview of the table is not modelled.
- Coordinates and other numbers are kept as opaque exact reals. No float arithmetic happens locally.
- The per-row loop of `iterrows` is modelled over the rows in order. pandas' dtype conversions of a row are not modelled.
- Preprocessing.Preprocess: requires that the table does not hold both `ciudad` and `departamento`. pandas would then produce two columns with the same label, which a map-per-row table cannot represent.
- Pipeline.Run: has the same requirement as `Preprocess`, for the same reason.
- Values.First: only the non-empty-list case is stated in its contract. The string and dict cases are written out in its body and are not used by any property.
- Enrichment.CityPath: its contract states only what every successful city record shares. The case-by-case behaviour is stated by `CityNotGeocoded`, `CityGeocoded` and `CityConversionMissing`.
- Enrichment.NationalPath: its contract states only the "N/A" barrio and comuna. The case-by-case behaviour is stated by `NationalFirstCandidate` and `NationalNoCandidates` for well-shaped candidates. A first candidate with missing keys raises, as the code does, but no lemma enumerates those exceptions.
- Pipeline.Merge: `pd.DataFrame(resultados)` gives each result column one dtype. A None in an otherwise numeric `Altura`, `Latitud` or `Longitud` column therefore becomes NaN, and integers become floats. The model writes each record's value unchanged.
- Pipeline.Merge: positional alignment stands in for pandas' index alignment. The table carries its default 0..n-1 index, so the two agree.

=== FILE: address.dfy ===
/**
  The address splitter: `direccion.rsplit(' ', 1)` followed by the choice of
  `calle` and `altura` from the pieces. The separator is the literal space
  character, not any whitespace.
 */
module Address {
  import opened Wrappers

  /** Street part and house-number part of a free-text address. */
  datatype Parts = Parts(calle: string, altura: string)

  /**
    "N/A", the placeholder the script writes for every field it cannot fill;
    here, the house number of an address that holds no space.
   */
  const NoNumber: string := "N/A"

  /** Index of the last space of `s`, if any. */
  function LastSpace(s: string): (r: Option<nat>)
    ensures r.Some? ==> r.value < |s| && s[r.value] == ' '
    ensures r.Some? ==> forall j :: r.value < j < |s| ==> s[j] != ' '
    ensures r.None? <==> ' ' !in s
  {
    if |s| == 0 then None
    else if s[|s| - 1] == ' ' then Some(|s| - 1)
    else
      var r := LastSpace(s[..|s| - 1]);
      assert s == s[..|s| - 1] + [s[|s| - 1]];
      r
  }

  /** Splits at the last space; without a space the whole text is the street. */
  function Split(direccion: string): (p: Parts)
    ensures ' ' in direccion ==> p.calle + " " + p.altura == direccion && ' ' !in p.altura
    ensures ' ' !in direccion ==> p == Parts(direccion, NoNumber)
  {
    match LastSpace(direccion)
    case None => Parts(direccion, NoNumber)
    case Some(k) =>
      assert direccion == direccion[..k] + " " + direccion[k + 1..];
      Parts(direccion[..k], direccion[k + 1..])
  }

  /** The split is the only way to write the address as street, one space, and a space-free tail. */
  lemma {:induction false} SplitUnique(direccion: string, calle: string, altura: string)
    requires direccion == calle + " " + altura
    requires ' ' !in altura
    ensures Split(direccion) == Parts(calle, altura)
  {
    var k := |calle|;
    assert direccion[k] == ' ';
    assert forall j :: k < j < |direccion| ==> direccion[j] == altura[j - k - 1];
    var last := LastSpace(direccion);
    assert last == Some(k);
    assert direccion[..k] == calle;
    assert direccion[k + 1..] == altura;
  }

  /** A trailing space leaves an empty house number; a lone leading space leaves an empty street. */
  lemma SplitEdgeCases(calle: string, altura: string)
    requires ' ' !in calle && ' ' !in altura
    ensures Split(calle + " ") == Parts(calle, "")
    ensures Split(" " + altura) == Parts("", altura)
  {
    assert calle + " " == calle + " " + "";
    SplitUnique(calle + " ", calle, "");
    assert " " + altura == "" + " " + altura;
    SplitUnique(" " + altura, "", altura);
  }
}

=== FILE: enrichment.dfy ===
/**
  The per-row enricher: splits the address, then either follows the city chain
  (geocode, convert the coordinates, reverse-lookup the neighbourhood) or asks
  the national normaliser, and assembles the six result fields with "N/A"
  fallbacks. A Python exception raised on the way is a `Failure`.
 */
module Enrichment {
  import opened Wrappers
  import opened Values
  import opened Address
  import opened Resolvers
  import opened Tables

  /** The remote services one run talks to. */
  datatype Services = Services(georef: Service, geocode: Service, convert: Service, datosUtiles: Service)

  /** One result row; its fields become the columns Altura … Comuna. */
  datatype Record = Record(altura: Value, calle: Value, latitud: Value, longitud: Value, barrio: Value, comuna: Value)

  /** The result columns, in the order the result rows list them. */
  datatype ResultColumn = Altura | Calle | Latitud | Longitud | Barrio | Comuna

  const ResultColumns: seq<ResultColumn> := [Altura, Calle, Latitud, Longitud, Barrio, Comuna]

  /** The column label a result column gets in the dataset. */
  function Label(c: ResultColumn): string {
    match c
    case Altura => "Altura"
    case Calle => "Calle"
    case Latitud => "Latitud"
    case Longitud => "Longitud"
    case Barrio => "Barrio"
    case Comuna => "Comuna"
  }

  /** The value a record gives to result column `c`. */
  function Field(rec: Record, c: ResultColumn): Value {
    match c
    case Altura => rec.altura
    case Calle => rec.calle
    case Latitud => rec.latitud
    case Longitud => rec.longitud
    case Barrio => rec.barrio
    case Comuna => rec.comuna
  }

  /** The record used when no service produced data: the split address and "N/A" elsewhere. */
  function Fallback(parts: Parts): (r: Record)
    ensures Field(r, Altura) == Str(parts.altura) && Field(r, Calle) == Str(parts.calle)
    ensures forall c :: c != Altura && c != Calle ==> Field(r, c) == NA
  {
    Record(Str(parts.altura), Str(parts.calle), NA, NA, NA, NA)
  }

  /**
    The fallback record of an address: with a space, street and number rebuild
    the address; without one, the whole address is the street and the other
    five fields are all "N/A".
   */
  lemma FallbackOfAddress(direccion: string)
    ensures var r := Fallback(Split(direccion));
      && r.calle.Str? && r.altura.Str?
      && (' ' in direccion ==> r.calle.s + " " + r.altura.s == direccion && ' ' !in r.altura.s)
      && (' ' !in direccion ==> r.calle == Str(direccion) && forall c :: c != Calle ==> Field(r, c) == NA)
  {
  }

  /** `fila["direccion"].rsplit(' ', 1)`: only a string has `rsplit`. */
  function SplitCell(direccion: Value): (r: Result<Parts, Error>)
    ensures r.Success? <==> direccion.Str?
    ensures r.Success? ==> r.value == Split(direccion.s)
    ensures r.Failure? ==> r.error == AttributeError("rsplit")
  {
    match direccion
    case Str(s) => Success(Split(s))
    case _ => Failure(AttributeError("rsplit"))
  }

  /** The city chain for an address already split into street and number. */
  function CityPath(parts: Parts, svc: Services): (r: Result<Record, Error>)
    ensures r.Success? ==> r.value.altura == Str(parts.altura) && r.value.calle == Str(parts.calle)
  {
    var calle := Str(parts.calle);
    var altura := Str(parts.altura);
    var caba := NormalizeAndGeocode(svc.geocode, calle, altura);
    var geocoded :- if Truthy(caba) then Contains(caba, "GeoCodificacion") else Success(false);
    if !geocoded then
      Success(Fallback(parts))
    else
      var geo :- Subscript(caba, "GeoCodificacion");
      var x :- Subscript(geo, "x");
      var y :- Subscript(geo, "y");
      var converted :- ConvertCoordinates(svc.convert, x, y);
      var lon :- Subscript(converted, "x");
      var lat :- Subscript(converted, "y");
      var hood :- GetCabaAdditionalData(svc.datosUtiles, lon, lat);
      Success(Record(altura, calle, lat, lon, hood.barrio, hood.comuna))
  }

  /** `sub[key] if sub else "N/A"`. */
  function IfPresent(sub: Value, key: string): (r: Result<Value, Error>)
    ensures r.Success? <==> !Truthy(sub) || (sub.Dict? && key in sub.fields)
    ensures r.Success? ==> r.value == if Truthy(sub) then sub.fields[key] else NA
  {
    if Truthy(sub) then Subscript(sub, key) else Success(NA)
  }

  /** The national chain; only the first candidate is read. */
  function NationalPath(direccion: Value, provincia: Value, departamento: Value, parts: Parts, svc: Services)
    : (r: Result<Record, Error>)
    ensures r.Success? ==> r.value.barrio == NA && r.value.comuna == NA
  {
    var candidates :- GetNormalizedAddress(svc.georef, direccion, provincia, departamento);
    if !Truthy(candidates) then
      Success(Fallback(parts))
    else
      var first :- First(candidates);
      var alt :- Subscript(first, "altura");
      var altura :- IfPresent(alt, "valor");
      var cal :- Subscript(first, "calle");
      var calle :- IfPresent(cal, "nombre");
      var ubicacion :- Subscript(first, "ubicacion");
      var lat :- IfPresent(ubicacion, "lat");
      var lon :- IfPresent(ubicacion, "lon");
      Success(Record(altura, calle, lat, lon, NA, NA))
  }

  predicate IsCityRow(row: Row) {
    "provincia" in row && row["provincia"] == Str(CABA)
  }

  /** A row is enriched only if it has both a `direccion` and a `provincia` cell. */
  lemma EnrichReadsProvincia(row: Row, svc: Services)
    requires Enrich(row, svc).Success?
    ensures "direccion" in row && row["direccion"].Str? && "provincia" in row
  {
  }

  /** The enrichment of one input row: one record, or the exception that ends the run. */
  function Enrich(row: Row, svc: Services): (r: Result<Record, Error>)
    ensures "direccion" !in row ==> r == Failure(KeyError(Str("direccion")))
    ensures "direccion" in row && !row["direccion"].Str? ==> r == Failure(AttributeError("rsplit"))
    ensures "direccion" in row && row["direccion"].Str? && "provincia" !in row ==>
              r == Failure(KeyError(Str("provincia")))
    ensures r.Success? && IsCityRow(row) ==>
              var parts := Split(row["direccion"].s);
              r.value.altura == Str(parts.altura) && r.value.calle == Str(parts.calle)
    ensures r.Success? && !IsCityRow(row) ==> r.value.barrio == NA && r.value.comuna == NA
  {
    var direccion :- Cell(row, "direccion");
    var parts :- SplitCell(direccion);
    var provincia :- Cell(row, "provincia");
    if provincia == Str(CABA) then
      CityPath(parts, svc)
    else
      var departamento :- Cell(row, "departamento");
      NationalPath(direccion, provincia, departamento, parts, svc)
  }

  /** The split of a row's address; meaningful when the row holds a string address. */
  function RowParts(row: Row): Parts
    requires "direccion" in row && row["direccion"].Str?
  {
    Split(row["direccion"].s)
  }

  /** Request the city geocoder receives for a row. */
  function RowGeocodeParams(row: Row): Params
    requires "direccion" in row && row["direccion"].Str?
  {
    GeocodeParams(Str(RowParts(row).calle), Str(RowParts(row).altura))
  }

  /**
    City path, geocoder gave nothing usable (non-200 reply, empty body, or a
    dict without `GeoCodificacion`): the split address and "N/A" for the rest,
    whatever the converter and the reverse lookup would have answered.
   */
  lemma CityNotGeocoded(row: Row, svc: Services, convert: Service, datosUtiles: Service)
    requires "direccion" in row && row["direccion"].Str? && IsCityRow(row)
    requires var reply := svc.geocode(RowGeocodeParams(row));
      || reply.status != 200
      || !Truthy(reply.body)
      || (reply.body.Dict? && "GeoCodificacion" !in reply.body.fields)
    ensures Enrich(row, svc) == Success(Fallback(RowParts(row)))
    ensures Enrich(row, svc.(convert := convert, datosUtiles := datosUtiles)) == Enrich(row, svc)
  {
  }

  /** A city row with a string address is enriched by the city chain alone. */
  lemma EnrichCity(row: Row, svc: Services)
    requires "direccion" in row && row["direccion"].Str? && IsCityRow(row)
    ensures Enrich(row, svc) == CityPath(RowParts(row), svc)
  {
  }

  /**
    City path on success: the coordinates are the converted ones (latitude is
    `y`, longitude is `x`), the reverse lookup is asked about the converted
    coordinates, and barrio/comuna default to "N/A" one by one.
   */
  lemma CityGeocoded(row: Row, svc: Services)
    requires "direccion" in row && row["direccion"].Str? && IsCityRow(row)
    requires var reply := svc.geocode(RowGeocodeParams(row));
      && reply.status == 200 && reply.body.Dict? && "GeoCodificacion" in reply.body.fields
      && var geo := reply.body.fields["GeoCodificacion"];
         geo.Dict? && "x" in geo.fields && "y" in geo.fields
         && var conv := svc.convert(ConvertParams(geo.fields["x"], geo.fields["y"]));
            conv.status == 200 && conv.body.Dict? && "resultado" in conv.body.fields
            && var c := conv.body.fields["resultado"];
               c.Dict? && "x" in c.fields && "y" in c.fields
               && var hood := svc.datosUtiles(LocationParams(c.fields["x"], c.fields["y"]));
                  hood.status != 200 || hood.body.Dict?
    ensures var geo := svc.geocode(RowGeocodeParams(row)).body.fields["GeoCodificacion"];
      var c := svc.convert(ConvertParams(geo.fields["x"], geo.fields["y"])).body.fields["resultado"];
      var hood := svc.datosUtiles(LocationParams(c.fields["x"], c.fields["y"]));
      var r := Enrich(row, svc);
      && r.Success?
      && r.value.altura == Str(RowParts(row).altura)
      && r.value.calle == Str(RowParts(row).calle)
      && r.value.latitud == c.fields["y"]
      && r.value.longitud == c.fields["x"]
      && (hood.status != 200 ==> r.value.barrio == NA && r.value.comuna == NA)
      && (hood.status == 200 ==>
            && r.value.barrio == (if "barrio" in hood.body.fields then hood.body.fields["barrio"] else NA)
            && r.value.comuna == (if "comuna" in hood.body.fields then hood.body.fields["comuna"] else NA))
  {
    EnrichCity(row, svc);
    var parts := RowParts(row);
    var caba := NormalizeAndGeocode(svc.geocode, Str(parts.calle), Str(parts.altura));
    assert caba == svc.geocode(RowGeocodeParams(row)).body;
    var geo := caba.fields["GeoCodificacion"];
    var converted := ConvertCoordinates(svc.convert, geo.fields["x"], geo.fields["y"]);
    assert converted.Success? && converted.value.Dict?;
    var c := converted.value;
    assert GetCabaAdditionalData(svc.datosUtiles, c.fields["x"], c.fields["y"]).Success?;
  }

  /**
    City path, geocoded but the converter gave no coordinate: the script
    subscripts None and the row raises TypeError; no "N/A" record is produced.
   */
  lemma CityConversionMissing(row: Row, svc: Services)
    requires "direccion" in row && row["direccion"].Str? && IsCityRow(row)
    requires var reply := svc.geocode(RowGeocodeParams(row));
      && reply.status == 200 && reply.body.Dict? && "GeoCodificacion" in reply.body.fields
      && var geo := reply.body.fields["GeoCodificacion"];
         geo.Dict? && "x" in geo.fields && "y" in geo.fields
         && var conv := svc.convert(ConvertParams(geo.fields["x"], geo.fields["y"]));
            || conv.status != 200
            || (conv.body.Dict? && ("resultado" !in conv.body.fields || conv.body.fields["resultado"] == Null))
    ensures Enrich(row, svc) == Failure(TypeError)
  {
    EnrichCity(row, svc);
  }

  /** A sub-object that, when truthy, is a dict holding `keys`. */
  predicate ReadableWhenTruthy(sub: Value, keys: set<string>) {
    Truthy(sub) ==> sub.Dict? && keys <= sub.fields.Keys
  }

  /** A national candidate whose sub-objects have the keys the script reads whenever they are truthy. */
  predicate WellShaped(candidate: Value) {
    && candidate.Dict?
    && {"altura", "calle", "ubicacion"} <= candidate.fields.Keys
    && ReadableWhenTruthy(candidate.fields["altura"], {"valor"})
    && ReadableWhenTruthy(candidate.fields["calle"], {"nombre"})
    && ReadableWhenTruthy(candidate.fields["ubicacion"], {"lat", "lon"})
  }

  /** `sub[key]` when the sub-object is truthy, "N/A" otherwise. */
  function Pick(sub: Value, key: string): Value
    requires Truthy(sub) ==> sub.Dict? && key in sub.fields
  {
    if Truthy(sub) then sub.fields[key] else NA
  }

  /**
    Reference reading of one national candidate: number, street and the
    latitude/longitude pair each fall back to "N/A" on their own sub-object,
    and barrio/comuna are never provided.
   */
  function FromCandidate(candidate: Value): (rec: Record)
    requires WellShaped(candidate)
    ensures rec.barrio == NA && rec.comuna == NA
    ensures !Truthy(candidate.fields["ubicacion"]) ==> rec.latitud == NA && rec.longitud == NA
  {
    var ub := candidate.fields["ubicacion"];
    Record(Pick(candidate.fields["altura"], "valor"), Pick(candidate.fields["calle"], "nombre"),
           Pick(ub, "lat"), Pick(ub, "lon"), NA, NA)
  }

  /** Request the national normaliser receives for a row. */
  function RowGeorefParams(row: Row): Params
    requires "direccion" in row && "provincia" in row && "departamento" in row
  {
    GeorefParams(row["direccion"], row["provincia"], row["departamento"])
  }

  /**
    National path with a non-empty candidate list: the record is read from the
    first candidate alone, and the city services are never consulted.
   */
  lemma NationalFirstCandidate(row: Row, svc: Services, geocode: Service, convert: Service, datosUtiles: Service)
    requires "direccion" in row && row["direccion"].Str? && !IsCityRow(row)
    requires "provincia" in row && "departamento" in row
    requires var reply := svc.georef(RowGeorefParams(row));
      && reply.status == 200 && reply.body.Dict? && "direcciones" in reply.body.fields
      && var list := reply.body.fields["direcciones"];
         list.List? && |list.items| > 0 && WellShaped(list.items[0])
    ensures var first := svc.georef(RowGeorefParams(row)).body.fields["direcciones"].items[0];
      && Enrich(row, svc) == Success(FromCandidate(first))
      && Enrich(row, svc.(geocode := geocode, convert := convert, datosUtiles := datosUtiles)) == Enrich(row, svc)
  {
  }

  /**
    National path without candidates (non-200 reply, no `direcciones`, or an
    empty list): the split address and "N/A" for the rest.
   */
  lemma NationalNoCandidates(row: Row, svc: Services)
    requires "direccion" in row && row["direccion"].Str? && !IsCityRow(row)
    requires "provincia" in row && "departamento" in row
    requires var reply := svc.georef(RowGeorefParams(row));
      || reply.status != 200
      || (reply.body.Dict? && "direcciones" !in reply.body.fields)
      || (reply.body.Dict? && "direcciones" in reply.body.fields && !Truthy(reply.body.fields["direcciones"]))
    ensures Enrich(row, svc) == Success(Fallback(RowParts(row)))
  {
  }
}

=== FILE: pipeline.dfy ===
/**
  The body of `main()` after loading: preprocessing, the required-columns
  check, the loop that appends one result per row, and the merge of the
  result columns back onto the dataset.
 */
module Pipeline {
  import opened Wrappers
  import opened Values
  import opened Tables
  import opened Enrichment
  import opened Preprocessing

  /** Columns the enrichment reads, in the order they are reported when missing. */
  const Required: seq<string> := ["direccion", "provincia", "departamento"]

  /** The required columns a dataset lacks, in the order of `Required`. */
  function MissingColumns(columns: seq<string>): (m: seq<string>)
    ensures forall c :: c in m <==> c in Required && c !in columns
    ensures Subsequence(m, Required)
    ensures m == [] <==> "direccion" in columns && "provincia" in columns && "departamento" in columns
  {
    var m := Absent(Required, columns);
    if m != [] then assert m[0] in m; m
    else
      assert forall c :: c in Required ==> c in columns;
      assert "direccion" in Required && "provincia" in Required && "departamento" in Required;
      m
  }

  /** `e` is the exception of some row, and every row before it enriches without one. */
  predicate FirstFailure(rows: seq<Row>, svc: Services, e: Error) {
    exists k :: 0 <= k < |rows| && Enrich(rows[k], svc) == Failure(e)
      && forall j :: 0 <= j < k ==> Enrich(rows[j], svc).Success?
  }

  /**
    The enrichment loop: one record per row, in row order, or the exception of
    the first row that raises (the loop does not catch it).
   */
  function EnrichAll(rows: seq<Row>, svc: Services): (r: Result<seq<Record>, Error>)
    ensures r.Success? <==> forall i :: 0 <= i < |rows| ==> Enrich(rows[i], svc).Success?
    ensures r.Success? ==> |r.value| == |rows|
    ensures r.Success? ==> forall i :: 0 <= i < |rows| ==> r.value[i] == Enrich(rows[i], svc).value
    ensures r.Failure? ==> FirstFailure(rows, svc, r.error)
  {
    if |rows| == 0 then Success([])
    else
      var first :- Enrich(rows[0], svc);
      var rest := EnrichAll(rows[1..], svc);
      if rest.Failure? then
        assert forall j :: 1 <= j < |rows| ==> rows[j] == rows[1..][j - 1];
        Failure(rest.error)
      else
        Success([first] + rest.value)
  }

  /** One result column: the field `c` of every record, in order. */
  function ColumnOf(results: seq<Record>, c: ResultColumn): (column: seq<Value>)
    ensures |column| == |results|
    ensures forall i :: 0 <= i < |results| ==> column[i] == Field(results[i], c)
  {
    seq(|results|, i requires 0 <= i < |results| => Field(results[i], c))
  }

  /** Row `i` after the columns `names` were written onto it one after another. */
  function WriteCells(row: Row, names: seq<ResultColumn>, results: seq<Record>, i: nat): Row
    decreases |names|
  {
    if |names| == 0 then row
    else WriteCells(row[Label(names[0]) := Aligned(ColumnOf(results, names[0]), i)], names[1..], results, i)
  }

  /**
    The labels that writing the columns `names` onto a table with `columns`
    appends, in the order they are first written; labels already present are
    overwritten in place and add nothing.
   */
  function NewLabels(columns: seq<string>, names: seq<ResultColumn>): seq<string>
    decreases |names|
  {
    if |names| == 0 then []
    else
      var l := Label(names[0]);
      if l in columns then NewLabels(columns, names[1..])
      else [l] + NewLabels(columns + [l], names[1..])
  }

  /**
    The appended labels are exactly the labels of `names` not already present,
    each once: nothing else is added and nothing is repeated.
   */
  lemma {:induction false} NewLabelsMembers(columns: seq<string>, names: seq<ResultColumn>)
    ensures forall k :: k in NewLabels(columns, names) <==> k !in columns && exists c :: c in names && Label(c) == k
    ensures Distinct(NewLabels(columns, names))
    decreases |names|
  {
    if |names| > 0 {
      var l := Label(names[0]);
      assert forall c :: c in names <==> c == names[0] || c in names[1..];
      if l in columns {
        NewLabelsMembers(columns, names[1..]);
      } else {
        NewLabelsMembers(columns + [l], names[1..]);
        assert l !in NewLabels(columns + [l], names[1..]);
      }
    }
  }

  /** The labels of `names`, in order. */
  function Labels(names: seq<ResultColumn>): (labels: seq<string>)
    ensures |labels| == |names|
    ensures forall i :: 0 <= i < |names| ==> labels[i] == Label(names[i])
  {
    seq(|names|, i requires 0 <= i < |names| => Label(names[i]))
  }

  /** No column occurs twice in `names`. */
  predicate NoRepeats(names: seq<ResultColumn>)
    decreases |names|
  {
    |names| == 0 || (names[0] !in names[1..] && NoRepeats(names[1..]))
  }

  /** Writing distinct columns none of which is present appends all their labels, in order. */
  lemma {:induction false} NewLabelsFresh(columns: seq<string>, names: seq<ResultColumn>)
    requires forall c :: c in names ==> Label(c) !in columns
    requires NoRepeats(names)
    ensures NewLabels(columns, names) == Labels(names)
    decreases |names|
  {
    if |names| > 0 {
      var l := Label(names[0]);
      assert names[0] in names;
      forall c | c in names[1..]
        ensures Label(c) !in columns + [l]
      {
        assert c in names;
        LabelInjective(c, names[0]);
      }
      NewLabelsFresh(columns + [l], names[1..]);
      assert Labels(names) == [l] + Labels(names[1..]);
    }
  }

  /** On a table without result columns, the six labels are appended in the loop's order. */
  lemma ResultLabelsAppended(columns: seq<string>)
    requires forall c :: Label(c) !in columns
    ensures NewLabels(columns, ResultColumns) == ["Altura", "Calle", "Latitud", "Longitud", "Barrio", "Comuna"]
  {
    NewLabelsFresh(columns, ResultColumns);
  }

  /** `for columna in names: datos[columna] = df_resultados[columna]`. */
  function MergeColumns(t: Table, names: seq<ResultColumn>, results: seq<Record>): (r: Table)
    ensures |r.rows| == |t.rows|
    ensures forall i :: 0 <= i < |t.rows| ==> r.rows[i] == WriteCells(t.rows[i], names, results, i)
    ensures t.columns <= r.columns
    ensures r.columns == t.columns + NewLabels(t.columns, names)
    decreases |names|
  {
    if |names| == 0 then t
    else
      var step := SetColumn(t, Label(names[0]), ColumnOf(results, names[0]));
      MergeColumns(step, names[1..], results)
  }

  /** Every written column is a column of the result. */
  lemma {:induction false} MergeColumnsLabels(t: Table, names: seq<ResultColumn>, results: seq<Record>, c: ResultColumn)
    requires c in names
    ensures Label(c) in MergeColumns(t, names, results).columns
    decreases |names|
  {
    var step := SetColumn(t, Label(names[0]), ColumnOf(results, names[0]));
    if c == names[0] {
      assert Label(c) in step.columns;
    } else {
      MergeColumnsLabels(step, names[1..], results, c);
    }
  }

  /** Writing columns keeps labels unique and every row's keys equal to the labels. */
  lemma {:induction false} MergeColumnsWellFormed(t: Table, names: seq<ResultColumn>, results: seq<Record>)
    ensures WellFormed(t) ==> WellFormed(MergeColumns(t, names, results))
    decreases |names|
  {
    if |names| > 0 {
      MergeColumnsWellFormed(SetColumn(t, Label(names[0]), ColumnOf(results, names[0])), names[1..], results);
    }
  }

  /** Distinct result columns have distinct labels. */
  lemma LabelInjective(a: ResultColumn, b: ResultColumn)
    requires a != b
    ensures Label(a) != Label(b)
  {
    assert Label(a)[0] != Label(b)[0] || Label(a)[1] != Label(b)[1] || |Label(a)| != |Label(b)|;
  }

  /** A cell whose label none of `names` carries is left as it was. */
  lemma {:induction false} WriteCellsKeeps(row: Row, names: seq<ResultColumn>, results: seq<Record>, i: nat, k: string)
    requires forall c :: c in names ==> Label(c) != k
    ensures k in WriteCells(row, names, results, i) <==> k in row
    ensures k in row ==> WriteCells(row, names, results, i)[k] == row[k]
    decreases |names|
  {
    if |names| > 0 {
      assert names[0] in names;
      var next := row[Label(names[0]) := Aligned(ColumnOf(results, names[0]), i)];
      assert forall c :: c in names[1..] ==> c in names;
      WriteCellsKeeps(next, names[1..], results, i, k);
    }
  }

  /** Every written column holds row `i`'s value of that column afterwards. */
  lemma {:induction false} WriteCellsWrites(row: Row, names: seq<ResultColumn>, results: seq<Record>, i: nat, c: ResultColumn)
    requires c in names
    ensures Label(c) in WriteCells(row, names, results, i)
    ensures WriteCells(row, names, results, i)[Label(c)] == Aligned(ColumnOf(results, c), i)
    decreases |names|
  {
    var next := row[Label(names[0]) := Aligned(ColumnOf(results, names[0]), i)];
    if c in names[1..] {
      WriteCellsWrites(next, names[1..], results, i, c);
    } else {
      assert names[0] == c;
      forall c' | c' in names[1..]
        ensures Label(c') != Label(c)
      {
        LabelInjective(c', c);
      }
      WriteCellsKeeps(next, names[1..], results, i, Label(c));
    }
  }

  /** Holds of a label that is not one of the six result columns. */
  predicate OtherLabel(k: string) {
    forall c :: Label(c) != k
  }

  /** `names` lists every result column. */
  predicate Complete(names: seq<ResultColumn>) {
    forall c :: c in names
  }

  lemma ResultColumnsComplete()
    ensures Complete(ResultColumns)
  {
    forall c: ResultColumn
      ensures c in ResultColumns
    {
      match c
      case Altura => assert ResultColumns[0] == c;
      case Calle => assert ResultColumns[1] == c;
      case Latitud => assert ResultColumns[2] == c;
      case Longitud => assert ResultColumns[3] == c;
      case Barrio => assert ResultColumns[4] == c;
      case Comuna => assert ResultColumns[5] == c;
    }
  }

  /**
    The merge: every result column is written onto the dataset by row position,
    and a row beyond the end of the results receives NaN. An empty result list
    builds a frame without columns, so then nothing is added.
   */
  function Merge(t: Table, results: seq<Record>): (r: Table)
    ensures |results| == 0 ==> r == t
    ensures |r.rows| == |t.rows|
    ensures t.columns <= r.columns
    ensures |results| > 0 ==> forall c :: Label(c) in r.columns
    ensures |results| > 0 ==> r.columns == t.columns + NewLabels(t.columns, ResultColumns)
    ensures WellFormed(t) ==> WellFormed(r)
    ensures forall i, k :: 0 <= i < |t.rows| && k in t.rows[i] && OtherLabel(k) ==>
              k in r.rows[i] && r.rows[i][k] == t.rows[i][k]
    ensures forall i, k :: 0 <= i < |t.rows| && k in r.rows[i] && OtherLabel(k) ==> k in t.rows[i]
    ensures |results| > 0 ==>
              forall i, c :: 0 <= i < |t.rows| ==>
                Label(c) in r.rows[i] && r.rows[i][Label(c)] == (if i < |results| then Field(results[i], c) else NaN)
  {
    if |results| == 0 then t
    else
      ResultColumnsComplete();
      MergeAll(t, ResultColumns, results)
  }

  /**
    Writes a complete list of result columns; the non-empty branch of Merge.
    Stated directly as its outcome, the appended labels and each row with its
    cells written, which `MergeAllIsLoop` shows is what the loop builds.
   */
  function MergeAll(t: Table, names: seq<ResultColumn>, results: seq<Record>): (r: Table)
    requires Complete(names)
    ensures |r.rows| == |t.rows|
    ensures t.columns <= r.columns
    ensures forall c :: Label(c) in r.columns
    ensures r.columns == t.columns + NewLabels(t.columns, names)
    ensures WellFormed(t) ==> WellFormed(r)
    ensures forall i, k :: 0 <= i < |t.rows| && k in t.rows[i] && OtherLabel(k) ==>
              k in r.rows[i] && r.rows[i][k] == t.rows[i][k]
    ensures forall i, k :: 0 <= i < |t.rows| && k in r.rows[i] && OtherLabel(k) ==> k in t.rows[i]
    ensures forall i, c :: 0 <= i < |t.rows| ==>
              Label(c) in r.rows[i] && r.rows[i][Label(c)] == (if i < |results| then Field(results[i], c) else NaN)
  {
    var r := MergeColumns(t, names, results);
    MergeColumnsWellFormed(t, names, results);
    ResultLabelsAdded(t, names, results);
    OtherCellsKept(t, names, results, r);
    ResultCellsWritten(t, names, results, r);
    MergeAllIsLoop(t, names, results);
    Table(t.columns + NewLabels(t.columns, names),
          seq(|t.rows|, i requires 0 <= i < |t.rows| => WriteCells(t.rows[i], names, results, i)))
  }

  /** The direct outcome equals the loop that assigns the columns one after another. */
  lemma MergeAllIsLoop(t: Table, names: seq<ResultColumn>, results: seq<Record>)
    ensures MergeColumns(t, names, results)
         == Table(t.columns + NewLabels(t.columns, names),
                  seq(|t.rows|, i requires 0 <= i < |t.rows| => WriteCells(t.rows[i], names, results, i)))
  {
  }

  lemma ResultLabelsAdded(t: Table, names: seq<ResultColumn>, results: seq<Record>)
    requires Complete(names)
    ensures forall c :: Label(c) in MergeColumns(t, names, results).columns
  {
    forall c
      ensures Label(c) in MergeColumns(t, names, results).columns
    {
      MergeColumnsLabels(t, names, results, c);
    }
  }

  lemma OtherCellsKept(t: Table, names: seq<ResultColumn>, results: seq<Record>, r: Table)
    requires r == MergeColumns(t, names, results)
    ensures forall i, k :: 0 <= i < |t.rows| && OtherLabel(k) ==>
        (k in r.rows[i] <==> k in t.rows[i]) && (k in t.rows[i] ==> r.rows[i][k] == t.rows[i][k])
  {
    forall i, k | 0 <= i < |t.rows| && OtherLabel(k)
      ensures (k in r.rows[i] <==> k in t.rows[i]) && (k in t.rows[i] ==> r.rows[i][k] == t.rows[i][k])
    {
      WriteCellsKeeps(t.rows[i], names, results, i, k);
    }
  }

  lemma ResultCellsWritten(t: Table, names: seq<ResultColumn>, results: seq<Record>, r: Table)
    requires Complete(names) && r == MergeColumns(t, names, results)
    ensures forall i, c :: 0 <= i < |t.rows| ==>
        Label(c) in r.rows[i] && r.rows[i][Label(c)] == (if i < |results| then Field(results[i], c) else NaN)
  {
    forall i, c | 0 <= i < |t.rows|
      ensures Label(c) in r.rows[i] && r.rows[i][Label(c)] == (if i < |results| then Field(results[i], c) else NaN)
    {
      MergeColumnsWritesAt(t, names, results, i, c);
    }
  }

  /** Column `name` of `t` exists and holds `values`, aligned by row position. */
  predicate ColumnHolds(t: Table, name: string, values: seq<Value>) {
    && name in t.columns
    && forall i :: 0 <= i < |t.rows| ==> name in t.rows[i] && t.rows[i][name] == Aligned(values, i)
  }

  /** Writing a column that already holds exactly those values changes nothing. */
  lemma SetColumnUnchanged(t: Table, name: string, values: seq<Value>)
    requires ColumnHolds(t, name, values)
    ensures SetColumn(t, name, values) == t
  {
    var r := SetColumn(t, name, values);
    assert forall i :: 0 <= i < |t.rows| ==> r.rows[i] == t.rows[i];
  }

  lemma {:induction false} MergeColumnsUnchanged(t: Table, names: seq<ResultColumn>, results: seq<Record>)
    requires forall c :: c in names ==> ColumnHolds(t, Label(c), ColumnOf(results, c))
    ensures MergeColumns(t, names, results) == t
    decreases |names|
  {
    if |names| > 0 {
      assert names[0] in names;
      SetColumnUnchanged(t, Label(names[0]), ColumnOf(results, names[0]));
      assert forall c :: c in names[1..] ==> c in names;
      MergeColumnsUnchanged(t, names[1..], results);
    }
  }

  /** After the columns `names` are written, each holds the value of its own record field. */
  lemma MergeColumnsWritesAt(t: Table, names: seq<ResultColumn>, results: seq<Record>, i: nat, c: ResultColumn)
    requires i < |t.rows| && c in names
    ensures Label(c) in MergeColumns(t, names, results).rows[i]
    ensures MergeColumns(t, names, results).rows[i][Label(c)] == Aligned(ColumnOf(results, c), i)
  {
    WriteCellsWrites(t.rows[i], names, results, i, c);
  }

  /** Writing the same columns a second time writes the values already there. */
  lemma MergeColumnsIdempotent(t: Table, names: seq<ResultColumn>, results: seq<Record>)
    ensures var once := MergeColumns(t, names, results);
      MergeColumns(once, names, results) == once
  {
    var once := MergeColumns(t, names, results);
    forall c | c in names
      ensures ColumnHolds(once, Label(c), ColumnOf(results, c))
    {
      MergeColumnsLabels(t, names, results, c);
      forall i | 0 <= i < |once.rows|
        ensures Label(c) in once.rows[i] && once.rows[i][Label(c)] == Aligned(ColumnOf(results, c), i)
      {
        MergeColumnsWritesAt(t, names, results, i, c);
      }
    }
    MergeColumnsUnchanged(once, names, results);
  }

  /** Merging the same results a second time overwrites the six columns with equal values. */
  lemma MergeIdempotent(t: Table, results: seq<Record>)
    ensures Merge(Merge(t, results), results) == Merge(t, results)
  {
    if |results| > 0 {
      MergeColumnsIdempotent(t, ResultColumns, results);
    }
  }

  /** What a run ends with. */
  datatype Outcome =
    | MissingRequired(missing: seq<string>)   // reported and returned before enrichment
    | Crashed(error: Error)                    // an exception escaped the loop
    | Completed(table: Table)                  // the enriched dataset

  /** Every row of `rows` is enriched without an exception. */
  predicate AllEnriched(rows: seq<Row>, svc: Services) {
    forall i :: 0 <= i < |rows| ==> Enrich(rows[i], svc).Success?
  }

  /**
    `out` is `d` with the six result columns merged in: same rows, every other
    cell unchanged, and row i's result columns holding row i's own record.
   */
  predicate CarriesEnrichment(d: Table, out: Table, svc: Services)
    requires AllEnriched(d.rows, svc)
  {
    && KeepsInput(d, out)
    && ColumnsAppended(d, out)
    && forall i, c :: 0 <= i < |d.rows| ==>
         Label(c) in out.rows[i] && out.rows[i][Label(c)] == Field(Enrich(d.rows[i], svc).value, c)
  }

  /**
    The columns of `out` are those of `d` followed by the result labels it
    lacked, or just those of `d` when there are no rows (and so no results).
   */
  predicate ColumnsAppended(d: Table, out: Table) {
    out.columns == if |d.rows| == 0 then d.columns else d.columns + NewLabels(d.columns, ResultColumns)
  }

  /** `out` has the rows of `d`, and every cell outside the six result columns is exactly the input's. */
  predicate KeepsInput(d: Table, out: Table) {
    && |out.rows| == |d.rows|
    && (WellFormed(d) ==> WellFormed(out))
    && (forall i, k :: 0 <= i < |d.rows| && k in d.rows[i] && OtherLabel(k) ==>
          k in out.rows[i] && out.rows[i][k] == d.rows[i][k])
    && (forall i, k :: 0 <= i < |d.rows| && k in out.rows[i] && OtherLabel(k) ==> k in d.rows[i])
  }

  /**
    `main()` after preprocessing: the required-columns check, the enrichment
    loop and the merge, on the preprocessed dataset `d`.
   */
  function Process(d: Table, svc: Services): (o: Outcome)
    ensures o.MissingRequired? <==>
      "direccion" !in d.columns || "provincia" !in d.columns || "departamento" !in d.columns
    ensures o.MissingRequired? ==> o.missing == MissingColumns(d.columns)
    ensures o.Completed? <==> MissingColumns(d.columns) == [] && AllEnriched(d.rows, svc)
    ensures o.Crashed? ==> FirstFailure(d.rows, svc, o.error)
    ensures o.Completed? ==> CarriesEnrichment(d, o.table, svc)
  {
    var missing := MissingColumns(d.columns);
    if missing != [] then MissingRequired(missing)
    else
      var all := EnrichAll(d.rows, svc);
      if all.Failure? then Crashed(all.error)
      else
        MergedResults(d, svc, all.value);
        Completed(Merge(d, all.value))
  }

  /** `main()` from preprocessing on; the dataset is given instead of downloaded. */
  function Run(t: Table, svc: Services): (o: Outcome)
    requires !("ciudad" in t.columns && "departamento" in t.columns)
    ensures o.MissingRequired? <==>
      ("direccion" !in t.columns || "provincia" !in t.columns || ("departamento" !in t.columns && "ciudad" !in t.columns))
    ensures o.Completed? ==> |o.table.rows| == |t.rows|
    ensures o.Completed? ==>
      forall i :: 0 <= i < |t.rows| ==> "provincia" in o.table.rows[i] && o.table.rows[i]["provincia"] != Capital
  {
    var d := Preprocess(t);
    assert "direccion" in d.columns <==> "direccion" in t.columns by {
      assert forall j :: 0 <= j < |t.columns| ==> (d.columns[j] == "direccion" <==> t.columns[j] == "direccion");
    }
    assert "provincia" in d.columns <==> "provincia" in t.columns by {
      assert forall j :: 0 <= j < |t.columns| ==> (d.columns[j] == "provincia" <==> t.columns[j] == "provincia");
    }
    var o := Process(d, svc);
    if o.Completed? then
      ProvinceNormalized(d, o.table, svc);
      o
    else
      o
  }

  /**
    After the merge the province column is still the preprocessed one, free of
    "Capital": every enriched row has read its `provincia`, and the merge keeps
    that cell.
   */
  lemma ProvinceNormalized(d: Table, out: Table, svc: Services)
    requires NoCapital(d) && AllEnriched(d.rows, svc)
    requires KeepsInput(d, out)
    ensures forall i :: 0 <= i < |out.rows| ==> "provincia" in out.rows[i] && out.rows[i]["provincia"] != Capital
  {
    assert OtherLabel("provincia") by {
      forall c ensures Label(c) != "provincia" {
        assert Label(c)[0] != 'p';
      }
    }
    forall i | 0 <= i < |out.rows|
      ensures "provincia" in out.rows[i] && out.rows[i]["provincia"] != Capital
    {
      EnrichReadsProvincia(d.rows[i], svc);
      assert "provincia" in out.rows[i] && out.rows[i]["provincia"] == d.rows[i]["provincia"];
    }
  }

  /** A cell outside the result columns reads the same after the merge. */
  lemma KeptCell(t: Table, results: seq<Record>, i: int, k: string)
    requires 0 <= i < |t.rows| && k in t.rows[i] && OtherLabel(k)
    ensures k in Merge(t, results).rows[i] && Merge(t, results).rows[i][k] == t.rows[i][k]
  {
  }

  /** The merged table carries row i's own enrichment in every result column. */
  lemma MergedResults(d: Table, svc: Services, results: seq<Record>)
    requires AllEnriched(d.rows, svc)
    requires |results| == |d.rows|
    requires forall i :: 0 <= i < |d.rows| ==> results[i] == Enrich(d.rows[i], svc).value
    ensures CarriesEnrichment(d, Merge(d, results), svc)
  {
  }
}

=== FILE: preprocessing.dfy ===
/**
  `preprocess_dataframe`: every cell equal to "Capital" becomes the city's full
  name, and the column `ciudad` is renamed to `departamento`.
 */
module Preprocessing {
  import opened Values
  import opened Tables

  const Capital: Value := Str("Capital")

  /** `df.replace({'Capital': ...})` on one cell: only an exact match is replaced. */
  function ReplaceCapital(v: Value): (r: Value)
    ensures r != Capital
    ensures r == v <==> v != Capital
    ensures v == Capital ==> r == Str(CABA)
  {
    if v == Capital then Str(CABA) else v
  }

  /** The rename `{'ciudad': 'departamento'}` applied to one label. */
  function Rename(column: string): (r: string)
    ensures r != "ciudad"
    ensures r == column <==> column != "ciudad"
    ensures column == "ciudad" ==> r == "departamento"
  {
    if column == "ciudad" then "departamento" else column
  }

  /** One row of the preprocessed table. */
  function PreprocessRow(row: Row): (r: Row)
    ensures "ciudad" !in r
    ensures forall k :: k in r ==> r[k] != Capital
    ensures !("ciudad" in row && "departamento" in row) ==>
      && r.Keys == (set k | k in row :: Rename(k))
      && forall k :: k in row ==> Rename(k) in r && r[Rename(k)] == ReplaceCapital(row[k])
  {
    var replaced := map k | k in row :: ReplaceCapital(row[k]);
    if "ciudad" in replaced then (replaced - {"ciudad"})["departamento" := replaced["ciudad"]] else replaced
  }

  /** Holds when a table has no cell equal to "Capital". */
  predicate NoCapital(t: Table) {
    forall i, k :: 0 <= i < |t.rows| && k in t.rows[i] ==> t.rows[i][k] != Capital
  }

  /** The preprocessed table: same rows in the same order, cells replaced, one label renamed. */
  function Preprocess(t: Table): (r: Table)
    requires !("ciudad" in t.columns && "departamento" in t.columns)
    ensures |r.rows| == |t.rows| && |r.columns| == |t.columns|
    ensures forall j :: 0 <= j < |t.columns| ==> r.columns[j] == Rename(t.columns[j])
    ensures "ciudad" !in r.columns
    ensures "departamento" in r.columns <==> "ciudad" in t.columns || "departamento" in t.columns
    ensures NoCapital(r)
    ensures WellFormed(t) ==> WellFormed(r)
    ensures WellFormed(t) ==>
      forall i, k :: 0 <= i < |t.rows| && k in t.rows[i] ==>
        Rename(k) in r.rows[i] && r.rows[i][Rename(k)] == ReplaceCapital(t.rows[i][k])
  {
    var columns := seq(|t.columns|, j requires 0 <= j < |t.columns| => Rename(t.columns[j]));
    var rows := seq(|t.rows|, i requires 0 <= i < |t.rows| => PreprocessRow(t.rows[i]));
    RenamedColumns(t.columns, columns);
    Table(columns, rows)
  }

  /** Renaming label by label renames the set of labels and keeps them distinct. */
  lemma RenamedColumns(columns: seq<string>, renamed: seq<string>)
    requires |renamed| == |columns|
    requires forall j :: 0 <= j < |columns| ==> renamed[j] == Rename(columns[j])
    requires !("ciudad" in columns && "departamento" in columns)
    ensures ColumnSet(renamed) == set c | c in columns :: Rename(c)
    ensures Distinct(columns) ==> Distinct(renamed)
  {
    forall c | c in renamed
      ensures c in set c | c in columns :: Rename(c)
    {
      var j :| 0 <= j < |renamed| && renamed[j] == c;
      assert columns[j] in columns;
    }
    forall c | c in columns
      ensures Rename(c) in ColumnSet(renamed)
    {
      var j :| 0 <= j < |columns| && columns[j] == c;
      assert renamed[j] == Rename(c);
    }
  }

  /** Preprocessing a second time changes nothing. */
  lemma PreprocessIdempotent(t: Table)
    requires !("ciudad" in t.columns && "departamento" in t.columns)
    ensures Preprocess(Preprocess(t)) == Preprocess(t)
  {
    var once := Preprocess(t);
    var twice := Preprocess(once);
    forall i | 0 <= i < |once.rows|
      ensures twice.rows[i] == once.rows[i]
    {
      PreprocessRowIdempotent(t.rows[i]);
    }
  }

  lemma PreprocessRowIdempotent(row: Row)
    ensures PreprocessRow(PreprocessRow(row)) == PreprocessRow(row)
  {
    ReplaceNothing(PreprocessRow(row));
  }

  /** A row without "ciudad" and without "Capital" cells is left as it is. */
  lemma ReplaceNothing(row: Row)
    requires "ciudad" !in row
    requires forall k :: k in row ==> row[k] != Capital
    ensures PreprocessRow(row) == row
  {
    var replaced := map k | k in row :: ReplaceCapital(row[k]);
    assert replaced == row;
  }
}

=== FILE: resolvers.dfy ===
/**
  The four wrappers around the remote services. Each service is a total
  function from the query parameters of the request to the HTTP reply; the
  wrappers build those parameters, branch on status 200 and default missing
  keys. JSON decoding is taken as done: a reply's body is already a `Value`.
 */
module Resolvers {
  import opened Wrappers
  import opened Values

  /** The query parameters of one request. */
  type Params = map<string, Value>

  datatype Http = Http(status: int, body: Value)

  /** A remote service, as seen from the script. */
  type Service = Params -> Http

  /** Result cap sent to the national normaliser. */
  const MaxCandidates: real := 5.0

  /** Neighbourhood and district of a city location. */
  datatype Neighborhood = Neighborhood(barrio: Value, comuna: Value)

  /** Query of the national normaliser: the department is sent only when it is truthy. */
  function GeorefParams(direccion: Value, provincia: Value, departamento: Value): (p: Params)
    ensures p.Keys == {"direccion", "provincia", "max"} + (if Truthy(departamento) then {"departamento"} else {})
    ensures p["direccion"] == direccion && p["provincia"] == provincia
    ensures p["max"] == Num(MaxCandidates)
    ensures "departamento" in p ==> p["departamento"] == departamento
  {
    var base := map["direccion" := direccion, "provincia" := provincia, "max" := Num(MaxCandidates)];
    if Truthy(departamento) then base["departamento" := departamento] else base
  }

  /** Query of the city normaliser and geocoder, always asking it to disambiguate. */
  function GeocodeParams(calle: Value, altura: Value): (p: Params)
    ensures p.Keys == {"calle", "altura", "desambiguar"}
    ensures p["calle"] == calle && p["altura"] == altura && p["desambiguar"] == Num(1.0)
  {
    map["calle" := calle, "altura" := altura, "desambiguar" := Num(1.0)]
  }

  /** Query of the city coordinate converter, asking for longitude/latitude output. */
  function ConvertParams(x: Value, y: Value): (p: Params)
    ensures p.Keys == {"x", "y", "output"}
    ensures p["x"] == x && p["y"] == y && p["output"] == Str("lonlat")
  {
    map["x" := x, "y" := y, "output" := Str("lonlat")]
  }

  /** Query of the city reverse lookup. */
  function LocationParams(x: Value, y: Value): (p: Params)
    ensures p.Keys == {"x", "y"}
    ensures p["x"] == x && p["y"] == y
  {
    map["x" := x, "y" := y]
  }

  /** Candidate list of the national normaliser; `Null` on any non-200 reply or missing list. */
  function GetNormalizedAddress(georef: Service, direccion: Value, provincia: Value, departamento: Value)
    : (r: Result<Value, Error>)
    ensures var reply := georef(GeorefParams(direccion, provincia, departamento));
      && (reply.status != 200 ==> r == Success(Null))
      && (reply.status == 200 && reply.body.Dict? ==>
            r == Success(if "direcciones" in reply.body.fields then reply.body.fields["direcciones"] else Null))
      && (r.Failure? <==> reply.status == 200 && !reply.body.Dict?)
  {
    var reply := georef(GeorefParams(direccion, provincia, departamento));
    if reply.status == 200 then DictGet(reply.body, "direcciones", Null) else Success(Null)
  }

  /** Whole body of the city geocoder on status 200, `Null` otherwise. */
  function NormalizeAndGeocode(geocode: Service, calle: Value, altura: Value): (r: Value)
    ensures var reply := geocode(GeocodeParams(calle, altura));
      r == if reply.status == 200 then reply.body else Null
  {
    var reply := geocode(GeocodeParams(calle, altura));
    if reply.status == 200 then reply.body else Null
  }

  /** The converted coordinate of the city converter; `Null` on non-200 or missing `resultado`. */
  function ConvertCoordinates(convert: Service, x: Value, y: Value): (r: Result<Value, Error>)
    ensures var reply := convert(ConvertParams(x, y));
      && (reply.status != 200 ==> r == Success(Null))
      && (reply.status == 200 && reply.body.Dict? ==>
            r == Success(if "resultado" in reply.body.fields then reply.body.fields["resultado"] else Null))
      && (r.Failure? <==> reply.status == 200 && !reply.body.Dict?)
  {
    var reply := convert(ConvertParams(x, y));
    if reply.status == 200 then DictGet(reply.body, "resultado", Null) else Success(Null)
  }

  /** Neighbourhood and district of a location, each defaulting to "N/A" on its own. */
  function GetCabaAdditionalData(datosUtiles: Service, x: Value, y: Value): (r: Result<Neighborhood, Error>)
    ensures var reply := datosUtiles(LocationParams(x, y));
      && (reply.status != 200 ==> r == Success(Neighborhood(NA, NA)))
      && (reply.status == 200 && reply.body.Dict? ==>
            && r.Success?
            && r.value.barrio == (if "barrio" in reply.body.fields then reply.body.fields["barrio"] else NA)
            && r.value.comuna == (if "comuna" in reply.body.fields then reply.body.fields["comuna"] else NA))
      && (r.Failure? <==> reply.status == 200 && !reply.body.Dict?)
  {
    var reply := datosUtiles(LocationParams(x, y));
    if reply.status == 200 then
      var barrio :- DictGet(reply.body, "barrio", NA);
      // The body is a dict once the first `get` succeeded, so the second cannot fail.
      var comuna := DictGet(reply.body, "comuna", NA).value;
      Success(Neighborhood(barrio, comuna))
    else
      Success(Neighborhood(NA, NA))
  }
}

=== FILE: tables.dfy ===
/**
  The dataset: an ordered list of column labels and one row per record, each
  row a map from column label to cell. The only column operation the script
  performs after loading is `datos[name] = column`, modelled by `SetColumn`.
 */
module Tables {
  import opened Wrappers
  import opened Values

  type Row = map<string, Value>

  datatype Table = Table(columns: seq<string>, rows: seq<Row>)

  function ColumnSet(columns: seq<string>): set<string> {
    set c | c in columns
  }

  predicate Distinct(columns: seq<string>) {
    forall i, j :: 0 <= i < j < |columns| ==> columns[i] != columns[j]
  }

  /** Column labels are unique and every row holds exactly the table's columns. */
  predicate WellFormed(t: Table) {
    && Distinct(t.columns)
    && forall i :: 0 <= i < |t.rows| ==> t.rows[i].Keys == ColumnSet(t.columns)
  }

  /** `fila[key]`: a missing label raises KeyError. */
  function Cell(row: Row, key: string): (r: Result<Value, Error>)
    ensures r.Success? <==> key in row
    ensures r.Success? ==> r.value == row[key]
  {
    if key in row then Success(row[key]) else Failure(KeyError(Str(key)))
  }

  /**
    Value that row `i` receives from a column of `values` aligned on the
    default index: its own position when there is one, NaN past the end.
   */
  function Aligned(values: seq<Value>, i: nat): (v: Value)
    ensures i < |values| ==> v == values[i]
    ensures |values| <= i ==> v == NaN
  {
    if i < |values| then values[i] else NaN
  }

  /** A column padded with NaN to any length aligns exactly like the column itself. */
  lemma AlignedPadded(values: seq<Value>, n: nat, i: nat)
    requires i < |values| + n
    ensures Aligned(values + seq(n, _ => NaN), i) == Aligned(values, i)
  {
  }

  /**
    `t[name] = values`: overwrites the column in place when it exists and
    appends it otherwise; rows beyond the end of `values` receive NaN.
   */
  function SetColumn(t: Table, name: string, values: seq<Value>): (r: Table)
    ensures |r.rows| == |t.rows|
    ensures r.columns == if name in t.columns then t.columns else t.columns + [name]
    ensures forall i :: 0 <= i < |r.rows| ==> r.rows[i] == t.rows[i][name := Aligned(values, i)]
    ensures WellFormed(t) ==> WellFormed(r)
  {
    var rows := seq(|t.rows|, i requires 0 <= i < |t.rows| => t.rows[i][name := Aligned(values, i)]);
    var r := Table(if name in t.columns then t.columns else t.columns + [name], rows);
    assert ColumnSet(r.columns) == ColumnSet(t.columns) + {name};
    r
  }

  /** `[c for c in wanted if c not in present]`. */
  function Absent(wanted: seq<string>, present: seq<string>): (m: seq<string>)
    ensures forall c :: c in m <==> c in wanted && c !in present
    ensures Subsequence(m, wanted)
    ensures forall c :: multiset(m)[c] == if c in present then 0 else multiset(wanted)[c]
  {
    if |wanted| == 0 then []
    else
      var rest := Absent(wanted[1..], present);
      assert wanted == [wanted[0]] + wanted[1..];
      assert forall c :: c in wanted <==> c == wanted[0] || c in wanted[1..];
      if wanted[0] in present then
        rest
      else
        assert ([wanted[0]] + rest)[1..] == rest;
        [wanted[0]] + rest
  }

  /** `a` is `b` with some elements left out, order kept. */
  predicate Subsequence(a: seq<string>, b: seq<string>)
    decreases |b|
  {
    || |a| == 0
    || (|b| > 0 && ((a[0] == b[0] && Subsequence(a[1..], b[1..])) || Subsequence(a, b[1..])))
  }
}

=== FILE: values.dfy ===
/**
  Dynamic values of the script: the cells of the input table and the decoded
  JSON bodies of the remote services, together with the few Python operations
  the script applies to them (truthiness, `d[k]`, `d.get(k, default)`, `k in v`,
  `v[0]`) and the exceptions those operations raise.
 */
module Values {
  import opened Wrappers
  import Address

  /** Numbers are kept as exact reals: the script never computes with them. */
  datatype Value =
    | Null                          // Python None, JSON null
    | NaN                           // pandas' marker for an empty cell (a float)
    | Bool(b: bool)
    | Num(x: real)
    | Str(s: string)
    | List(items: seq<Value>)
    | Dict(fields: map<string, Value>)

  /** The Python exceptions the modelled code can raise. */
  datatype Error =
    | KeyError(key: Value)
    | IndexError
    | TypeError
    | AttributeError(name: string)

  /** The placeholder the script writes for every field it cannot fill, as a value. */
  const NA: Value := Str(Address.NoNumber)

  /**
    The full name of the City of Buenos Aires: what preprocessing writes for
    "Capital", and the province value that selects the city path.
   */
  const CABA: string := "Ciudad Autónoma de Buenos Aires"

  /**
    Python's `bool(v)`: false exactly on None, False, zero and the empty
    string, list and dict; NaN is a non-zero float and therefore true.
   */
  predicate Truthy(v: Value)
    ensures !Truthy(v) <==>
      v == Null || v == Bool(false) || v == Num(0.0) || v == Str([]) || v == List([]) || v == Dict(map[])
  {
    match v
    case Null => false
    case NaN => true
    case Bool(b) => b
    case Num(x) => x != 0.0
    case Str(s) => |s| > 0
    case List(items) => |items| > 0
    case Dict(fields) => |fields| > 0
  }

  /** `v[key]` with a string key: only a dict holding the key answers. */
  function Subscript(v: Value, key: string): (r: Result<Value, Error>)
    ensures r.Success? <==> v.Dict? && key in v.fields
    ensures r.Success? ==> r.value == v.fields[key]
  {
    match v
    case Dict(fields) => if key in fields then Success(fields[key]) else Failure(KeyError(Str(key)))
    case _ => Failure(TypeError)
  }

  /** `v.get(key, default)`: only a dict has a `get` method. */
  function DictGet(v: Value, key: string, default: Value): (r: Result<Value, Error>)
    ensures r.Success? <==> v.Dict?
    ensures r.Success? && key in v.fields ==> r.value == v.fields[key]
    ensures r.Success? && key !in v.fields ==> r.value == default
    ensures r.Failure? ==> r.error == AttributeError("get")
  {
    match v
    case Dict(fields) => Success(if key in fields then fields[key] else default)
    case _ => Failure(AttributeError("get"))
  }

  /** `needle <= hay` as a contiguous piece, Python's `in` on two strings. */
  predicate IsInfix(needle: string, hay: string)
    decreases |hay|
  {
    needle <= hay || (|hay| > 0 && IsInfix(needle, hay[1..]))
  }

  /** `needle` occurs in `hay` starting at position `i`. */
  predicate OccursAt(needle: string, hay: string, i: int) {
    0 <= i <= |hay| - |needle| && hay[i..i + |needle|] == needle
  }

  /** `IsInfix` holds exactly when the needle occurs at some position of the haystack. */
  lemma {:induction false} InfixAt(needle: string, hay: string)
    ensures IsInfix(needle, hay) <==> exists i :: OccursAt(needle, hay, i)
    decreases |hay|
  {
    if needle <= hay {
      assert OccursAt(needle, hay, 0);
    } else if |hay| > 0 {
      InfixAt(needle, hay[1..]);
      if exists i :: OccursAt(needle, hay, i) {
        var i :| OccursAt(needle, hay, i);
        if i == 0 {
          assert false;
        }
        assert hay[1..][i - 1..i - 1 + |needle|] == hay[i..i + |needle|];
        assert OccursAt(needle, hay[1..], i - 1);
      }
      if IsInfix(needle, hay[1..]) {
        var i :| OccursAt(needle, hay[1..], i);
        assert hay[1..][i..i + |needle|] == hay[i + 1..i + 1 + |needle|];
        assert OccursAt(needle, hay, i + 1);
      }
    }
  }

  /** `key in v`: key test for a dict, element test for a list, substring test for a string. */
  function Contains(v: Value, key: string): (r: Result<bool, Error>)
    ensures v.Dict? ==> r == Success(key in v.fields)
    ensures v.List? ==> r == Success(Str(key) in v.items)
    ensures v.Str? ==> r.Success? && (r.value <==> exists i :: OccursAt(key, v.s, i))
    ensures r.Failure? <==> !(v.Dict? || v.List? || v.Str?)
    ensures r.Failure? ==> r.error == TypeError
  {
    match v
    case Dict(fields) => Success(key in fields)
    case List(items) => Success(Str(key) in items)
    case Str(s) => InfixAt(key, s); Success(IsInfix(key, s))
    case _ => Failure(TypeError)
  }

  /** `v[0]`, as applied to a value already known to be truthy. */
  function First(v: Value): (r: Result<Value, Error>)
    ensures v.List? && |v.items| > 0 ==> r == Success(v.items[0])
  {
    match v
    case List(items) => if |items| > 0 then Success(items[0]) else Failure(IndexError)
    case Str(s) => if |s| > 0 then Success(Str(s[..1])) else Failure(IndexError)
    case Dict(_) => Failure(KeyError(Num(0.0)))
    case _ => Failure(TypeError)
  }
}

=== FILE: wrappers.dfy ===
/** Failure-compatible Option and Result types used throughout the model. */
module Wrappers {

  datatype Option<+T> = None | Some(value: T) {
    predicate IsFailure() {
      None?
    }

    function PropagateFailure<U>(): Option<U>
      requires None?
    {
      None
    }

    function Extract(): T
      requires Some?
    {
      value
    }
  }

  /** `Failure` carries the exception that the modelled Python code would raise. */
  datatype Result<+R, +E> = Success(value: R) | Failure(error: E) {
    predicate IsFailure() {
      Failure?
    }

    function PropagateFailure<U>(): Result<U, E>
      requires Failure?
    {
      Failure(error)
    }

    function Extract(): R
      requires Success?
    {
      value
    }
  }
}
